=== FILE: README.md ===
# Fleet telemetry simulator: a Dafny model of the simulation engine

The service simulates ten vehicles. Each vehicle patrols a fixed random path
inside a geographic rectangle, and its telemetry drifts at random inside fixed
bands. A small state machine raises faults, keeps them for a few minutes and
clears them. A timer drives everything: on every tick, each vehicle
independently has a 50% chance of being updated and broadcast.

This project models that engine (`server.js`) as pure functions. Every
`Math.random()` value is an explicit parameter of type `Js.Unit`, a real in
[0, 1). Numbers are exact reals. The modules follow the structure of the
engine:

- `Js` (js.dfy): the JavaScript primitives the engine uses. These are
  `getRandomInRange`, the `Math.max(lo, Math.min(hi, x))` clamp, and reading an
  array past its end, which gives `undefined`.
- `Geo` (geo.dfy): `GEO_BOUNDS`, `getRandomPosition` and `generateRandomPath`.
- `Decimal` (decimal.dfy): the vehicle ids `(i + 1).toString()`, with a parser
  that inverts them.
- `Vehicles` (vehicles.dfy): the vehicle record and its attribute bands.
- `Reasons` (reasons.dfy): the four fault rules in checking order, and the
  `", "`-joined error message. It also has a parser for that message, with
  round trips in both directions.
- `Issues` (issues.dfy): `determineIssue`. The fault state is kept, as in the
  source, in the fields `hasIssue` / `errorMessage` / `issueTimer`. `Health` is
  the same state as a tagged variant `Healthy | Faulted(ticksLeft, reasons)`.
  A refinement lemma ties the two together.
- `Motion` (motion.dfy): bounce traversal of a path.
- `Update` (update.dfy): `getRandomUpdate`.
- `Simulation` (simulation.dfy): the initial fleet, `PATHS`, one tick of the
  `setInterval` callback, and runs of many ticks.

## Model

| member | source | states |
|---|---|---|
| `Js.At` | server.js:139 | reading `path[i]` gives the element exactly when i is an index of the path, and `undefined` otherwise, negative indices included |
| `Js.Clamp` | server.js:52-65 | the clamped value lies in [lo, hi]; a value already inside the band is unchanged; a value below the band becomes lo, and a value above a non-empty band becomes hi |
| `Js.RandomInRange` | server.js:81-83 | in exact arithmetic, `getRandomInRange(min, max)` lies in the half-open range [min, max) |
| `Geo.RandomPosition` | server.js:74-78 | a random position lies inside `GEO_BOUNDS` and, in exact arithmetic, strictly below the north-east corner |
| `Geo.Offset` | server.js:56 | the step offset `Math.random() * 0.002 - 0.001` lies in [-0.001, 0.001) |
| `Geo.NextPoint` | server.js:51-66 | one path step moves each coordinate by its offset when the offset point stays inside the bounds, and is clamped into the bounds otherwise; from a point inside, in exact arithmetic, it moves each coordinate by at most 0.001 |
| `Geo.GenerateRandomPath` | server.js:45-71 | the path has exactly 20 points, all inside `GEO_BOUNDS`; the first point is one step from the random start, and each later point is one clamped step from its predecessor, so in exact arithmetic within 0.001 of it on both axes |
| `Decimal.NatToString` | server.js:17 | `(i + 1).toString()` is a non-empty string of decimal digits without a leading zero |
| `Decimal.ParseNatToString` | server.js:17 | parsing the decimal id of a number gives the number back |
| `Decimal.NatToStringInjective` | server.js:17 | different vehicle numbers give different id strings |
| `Reasons.Fired` | server.js:101-104 | the fired reasons are exactly the rules that hold (battery < 20, tire pressure outside [28, 36], temperature > 50, regenerative braking off), each listed once, in checking order |
| `Reasons.Describe` | server.js:108 | `issues.join(", ")` is empty exactly when the list is, and otherwise starts with the first label |
| `Reasons.DecodeDescribe` | server.js:108 | parsing the `", "`-join of a non-empty reason list gives the list back |
| `Reasons.DescribeDecode` | server.js:108 | every message that parses is the join of the reasons it parses to |
| `Reasons.DescribeNotGeneric` | server.js:108-113 | a joined message is never empty and never the text "Unknown issue" |
| `Issues.IssueDuration` | server.js:109 | in exact arithmetic, a new fault lasts between 180 and 239 evaluations |
| `Issues.BranchOf` | server.js:89-114 | the four branches partition the inputs: countdown exactly for a faulted vehicle with a positive timer, the "Unknown issue" fallback exactly for a faulted one without, rule evaluation exactly for a healthy one whose roll exceeds 0.7, and nothing otherwise |
| `Issues.DetermineIssue` | server.js:86-117 | only the three fault fields change. Countdown: the timer drops by one, and the fault and message clear exactly when it reaches 0. Onset: with rules firing, the vehicle becomes faulted with the joined reasons and a timer in [180, 239]; with none firing, nothing changes. A failed roll changes nothing. The fallback keeps the fault and replaces an empty message by "Unknown issue" |
| `Issues.IssueInvariantMessages` | server.js:36-38 | under the invariant, a vehicle is faulted exactly when it has a message, and exactly when its timer is positive; the message is never "Unknown issue" |
| `Issues.DetermineIssuePreservesInvariant` | server.js:89-114 | `determineIssue` preserves the fault-field invariant, and under it the "Unknown issue" branch is never taken |
| `Issues.HealthRoundTrip` | server.js:89-110 | reading the tagged variant off a consistent vehicle and writing it back changes nothing, and the reverse also holds |
| `Issues.NextHealth` | server.js:89-110 | the variant state machine keeps a fault's reason list non-empty |
| `Issues.DetermineIssueRefinesHealth` | server.js:86-117 | on consistent vehicles, `determineIssue` is exactly the variant state machine, which has no case for a fault without time left |
| `Issues.FaultLastsExactlyTimer` | server.js:89-98 | a fault entered with timer T is still active with T - k left after k < T evaluations, and is cleared after exactly T, whatever the rolls |
| `Motion.Advance` | server.js:140-149 | one bounce step keeps a valid cursor valid on a path of 2 or more points. The direction flips exactly when the next index would leave the path. The new index minus the new direction is always the old index |
| `Motion.AdvanceNValid` | server.js:140-149 | any number of steps keeps the index in [0, n - 1] and the direction at ±1 |
| `Motion.AdvanceNAdd` | server.js:140-149 | a steps followed by b steps equal a + b steps |
| `Motion.WalkForward` | server.js:140-149 | walking forward with room ahead increases the index by the number of steps |
| `Motion.WalkBackward` | server.js:140-149 | walking backward with room behind decreases the index by the number of steps |
| `Motion.BounceRoundTrip` | server.js:140-149 | from index 0 walking forward, the walk reaches n - 1 after n - 1 steps, turns on step n, is back at 0 after 2n - 2 steps, and turns forward on the next step |
| `Motion.NeverBackToStart` | server.js:140-149 | from index 0 walking forward, no number of steps (one or more) brings the cursor back to index 0 walking forward |
| `Motion.BouncePeriodic` | server.js:140-149 | after the first step, the patrol repeats with period 2n - 2 |
| `Update.Jitter` | server.js:126 | `Math.random() * spread - spread / 2` lies within half the spread either way |
| `Update.WalkStep` | server.js:126-137 | a random-walk attribute becomes the old value plus its jitter when that stays in its band, and is clamped into the band otherwise; from inside the band, in exact arithmetic, it moves by at most half its spread |
| `Update.DrainStep` | server.js:127-135 | a drained level loses exactly the drawn amount (draw times rate) when that does not take it below 0; it is never negative, never above a non-negative old level, and never more than the rate below the old level |
| `Update.NextAttributes` | server.js:124-138 | after an update, speed, temperature, tire pressure, motor efficiency, engine load and GPS accuracy lie in their bands; the five levels are non-negative and, from non-negative levels, never rise; regenerative braking is on exactly when its draw exceeds 0.1 |
| `Update.NextAttributesSmallSteps` | server.js:126-137 | in exact arithmetic, in-band attributes move by at most 5 (speed), 1 (temperature, engine load), 0.25 (tire pressure, motor efficiency) and 0.1 (GPS accuracy) |
| `Update.Moved` | server.js:122-151 | the object literal keeps id, name and the fault fields; its position is the path point the vehicle is leaving; on a path of 2 or more points it keeps a valid cursor valid and has a defined position; its attributes are in their bands; the status is "moving" whenever the old speed was in its band |
| `Update.GetRandomUpdate` | server.js:120-154 | id and name are kept. The position is the path point at the index before the step, which is also the new index minus the new direction. The cursor makes one bounce step. The status comes from the speed before the update. The fault-field invariant is preserved |
| `Update.UpdatePreservesInvariant` | server.js:120-154 | on a valid path, an update keeps the vehicle invariant: attributes in bands, levels non-negative, cursor valid, position defined and inside the bounds, fault fields consistent, status "moving". Levels never rise, and the fault state follows the variant machine |
| `Update.UpdateCountsDown` | server.js:89-98 | an update of a faulted vehicle with time left only counts down: the timer drops by one, and the fault and message clear exactly when it reaches 0 |
| `Update.LowBatteryRaisesFault` | server.js:100-110 | a healthy vehicle with battery below 20 whose roll passes becomes faulted, with "Low battery level" first in its message and a timer in [180, 239] |
| `Simulation.NewVehicle` | server.js:16-40 | vehicle i gets an id that parses back to i + 1 and the name "Vehicle #" + id; its initial attributes lie in the update bands and its levels are non-negative; its position lies inside `GEO_BOUNDS`; it is healthy, at index 0 walking forward, and "moving" |
| `Simulation.InitialFleet` | server.js:16-40 | ten vehicles with ids "1" to "10" and names "Vehicle #" + id; all healthy with empty message and zero timer, at index 0 walking forward, status "moving" |
| `Simulation.InitialIdsDistinct` | server.js:16-17 | no two vehicles of the initial fleet share an id |
| `Simulation.InitialPaths` | server.js:43 | ten paths, each valid: 20 points inside `GEO_BOUNDS`; in exact arithmetic each point is within 0.001 of its predecessor on both axes, and the first point within 0.001 of that path's random start |
| `Simulation.InitialFleetInvariant` | server.js:16-40 | the initial fleet satisfies the fleet invariant on any valid paths |
| `Simulation.Startup` | server.js:16-43 | start-up yields exactly the initial fleet and ten paths, with the fleet invariant established and distinct ids |
| `Simulation.TickFrom` | server.js:165-173 | the in-place `forEach` leaves earlier positions alone; from position i on, it replaces exactly the selected vehicles by their updates |
| `Simulation.Tick` | server.js:165-173 | one tick keeps the fleet length; a vehicle whose coin fails is unchanged; a selected vehicle at index j becomes `getRandomUpdate(vehicle, j)` on path j |
| `Simulation.TickPreservesInvariant` | server.js:165-173 | a tick preserves the fleet invariant and every vehicle's id |
| `Simulation.Run` | server.js:164-174 | a run of ticks keeps the fleet length |
| `Simulation.RunPreservesInvariant` | server.js:164-174 | any number of ticks preserves the fleet invariant and the ids |
| `Simulation.SimulationKeepsInvariant` | server.js:16-174 | from start-up, after any ticks: every attribute is in its band, every level is non-negative, every vehicle has a valid cursor on its path and a defined position inside `GEO_BOUNDS`, shows "moving" and never reports "Unknown issue", and ids stay distinct |
| `Simulation.UnselectedVehicleUnchanged` | server.js:165-172 | a vehicle that no tick selects ends a run exactly as it started |
| `Simulation.FaultClearsAfterSelectedTicks` | server.js:165-172 | a fault with timer T shows T - c after c ≤ T selecting ticks, is active exactly when c < T, and keeps its message until then and has an empty one after; ticks that skip the vehicle do not count |

## Notes on the code

- The initial position of a vehicle is its own random point
  (server.js:33), not a point of its path.
- After an update, the position is read at the index before the step
  (server.js:139). So the position lags the cursor: it is
  `path[pathIndex - pathDirection]`, the point the vehicle has just left.
  `Update.GetRandomUpdate` states this.
- A fault lasts `Math.floor(getRandomInRange(180, 240))` evaluations
  (server.js:109). In exact arithmetic that is 180 to 239.
- The bounce walk never returns to its starting state. After 2N - 2 steps
  from index 0 walking forward, the index is 0 again, but the direction is -1.
  The next step goes to index 1 walking forward, so state (0, +1) never recurs.
  `Motion.BounceRoundTrip` states the checkpoints, and `Motion.NeverBackToStart`
  states that no later step returns to (0, +1).
- The path walk needs at least two points: on a one-point path the first step
  leaves the path (`Motion.SinglePointPathEscapes`). `generateRandomPath`
  always builds 20 points, so this does not arise.
- The status is "not" when the old speed is not positive (server.js:150). The
  model keeps that branch, but it is never taken: every reachable vehicle has
  speed of at least 10, and the invariant records status "moving".

## Left out

- Express, the HTTP server, socket.io, `socket.emit` of snapshots and updates,
  the connection and disconnect handlers, console logging and `PORT`
  (server.js:1-7, 156-185). These are I/O plumbing; the model returns the new
  fleet instead of emitting it.
- The wall-clock period of `setInterval`. A new timer is armed per connection,
  and all of them mutate the shared array. That is concurrency, so the model
  uses one timeline of ticks, each a pure function from fleet to fleet.
- `Math.random` itself. Every draw is a parameter in [0, 1). The model does not
  track the order in which the source consumes draws; each draw is named by
  what it is used for.
- IEEE floating-point rounding. Attributes and coordinates are exact reals, and
  `Math.floor` is `real.Floor`. Bounds that compare a sum or product with a
  strict or tight limit hold only in exact arithmetic. In doubles,
  `Math.random() * 60 + 180` can round up to 240, so a fault can last 240
  evaluations (`Issues.IssueDuration` promises at most 239).
  `getRandomInRange` can return its upper end, so a random position can lie on
  the north-east corner's latitude or longitude (`Geo.RandomPosition` promises
  strictly below); such a position is still inside `GEO_BOUNDS`. Adding an
  offset rounds to the coordinate's grid, so one path step can move a
  coordinate by slightly more than 0.001 (`Geo.NextPoint`,
  `Geo.GenerateRandomPath` and `Simulation.InitialPaths` promise at most
  0.001). The half-spread step bounds of `Update.WalkStep` and
  `Update.NextAttributesSmallSteps` can be exceeded by rounding in the same
  way. The clamps and floors themselves (bands, non-negative levels, levels
  that never rise, path points inside `GEO_BOUNDS`) are exact in doubles too, since
  `Math.max` and `Math.min` return one of their arguments.

=== FILE: decimal.dfy ===
/** Decimal rendering of vehicle numbers, as `(i + 1).toString()` produces the
    vehicle ids, with the parser that inverts it. */
module Decimal {

  predicate IsDigit(c: char)
  {
    '0' <= c <= '9'
  }

  function DigitChar(d: nat): (c: char)
    requires d < 10
    ensures IsDigit(c)
  {
    "0123456789"[d]
  }

  function DigitValue(c: char): (d: nat)
    requires IsDigit(c)
    ensures d < 10
  {
    (c as int - '0' as int)
  }

  lemma DigitRoundTrip(d: nat)
    requires d < 10
    ensures DigitValue(DigitChar(d)) == d
  {
  }

  /** The decimal numeral of `n`, without sign or leading zeros. */
  function NatToString(n: nat): (s: string)
    ensures |s| > 0
    ensures forall k :: 0 <= k < |s| ==> IsDigit(s[k])
    ensures |s| > 1 ==> s[0] != '0'
    decreases n
  {
    if n < 10 then [DigitChar(n)] else NatToString(n / 10) + [DigitChar(n % 10)]
  }

  /** The value of a non-empty string of decimal digits. */
  function ParseNat(s: string): nat
    requires |s| > 0
    requires forall k :: 0 <= k < |s| ==> IsDigit(s[k])
    decreases |s|
  {
    if |s| == 1 then DigitValue(s[0])
    else ParseNat(s[..|s| - 1]) * 10 + DigitValue(s[|s| - 1])
  }

  /** Parsing a rendered numeral gives back the number. */
  lemma {:induction false} ParseNatToString(n: nat)
    ensures ParseNat(NatToString(n)) == n
    decreases n
  {
    var s := NatToString(n);
    if n < 10 {
      DigitRoundTrip(n);
    } else {
      ParseNatToString(n / 10);
      DigitRoundTrip(n % 10);
      assert s[..|s| - 1] == NatToString(n / 10);
    }
  }

  /** Distinct numbers have distinct numerals, so the vehicle ids are unique. */
  lemma NatToStringInjective(a: nat, b: nat)
    ensures NatToString(a) == NatToString(b) ==> a == b
  {
    ParseNatToString(a);
    ParseNatToString(b);
  }
}

=== FILE: geo.dfy ===
/** The geographic envelope every vehicle patrols inside, and the generator of
    the fixed random-walk path each vehicle follows. */
module Geo {
  import opened Js

  datatype GeoPoint = GeoPoint(lat: real, lng: real)

  datatype GeoBounds = GeoBounds(southwest: GeoPoint, northeast: GeoPoint)

  /** `GEO_BOUNDS`: the rectangle the simulation lives in. */
  const GEO_BOUNDS := GeoBounds(GeoPoint(50.917, 6.844), GeoPoint(50.972, 7.08))

  /** Number of points of every generated path. */
  const PATH_STEPS := 20

  /** Largest change of either coordinate between two consecutive path points. */
  const MAX_OFFSET := 0.001

  predicate InBounds(p: GeoPoint)
  {
    && GEO_BOUNDS.southwest.lat <= p.lat <= GEO_BOUNDS.northeast.lat
    && GEO_BOUNDS.southwest.lng <= p.lng <= GEO_BOUNDS.northeast.lng
  }

  /** Neither coordinate of `q` differs from that of `p` by more than one step offset. */
  predicate Near(p: GeoPoint, q: GeoPoint)
  {
    Abs(p.lat - q.lat) <= MAX_OFFSET && Abs(p.lng - q.lng) <= MAX_OFFSET
  }

  /** A path as the simulator builds it: `PATH_STEPS` points, all inside the bounds. */
  predicate ValidPath(path: seq<GeoPoint>)
  {
    |path| == PATH_STEPS && forall k :: 0 <= k < |path| ==> InBounds(path[k])
  }

  /** The two `Math.random()` values consumed for one point: latitude first. */
  datatype PointDraw = PointDraw(lat: Unit, lng: Unit)

  /** All draws `generateRandomPath` consumes: the starting position, then one
      offset pair per step. */
  datatype PathDraws = PathDraws(start: PointDraw, steps: seq<PointDraw>)

  /** `getRandomPosition()`: a uniformly placed point of the bounds, and in
      exact arithmetic strictly below the north-east corner on both axes. */
  function RandomPosition(d: PointDraw): (p: GeoPoint)
    ensures InBounds(p)
    ensures p.lat < GEO_BOUNDS.northeast.lat && p.lng < GEO_BOUNDS.northeast.lng
  {
    GeoPoint(
      RandomInRange(GEO_BOUNDS.southwest.lat, GEO_BOUNDS.northeast.lat, d.lat),
      RandomInRange(GEO_BOUNDS.southwest.lng, GEO_BOUNDS.northeast.lng, d.lng))
  }

  /** `Math.random() * 0.002 - 0.001`: one coordinate offset in [-0.001, 0.001). */
  function Offset(u: Unit): (r: real)
    ensures -MAX_OFFSET <= r < MAX_OFFSET
  {
    u * (2.0 * MAX_OFFSET) - MAX_OFFSET
  }

  /** One step of the path walk: add an offset to each coordinate and clamp it
      back into the bounds, the two axes independently; a step that stays inside
      the bounds is exactly the offset point. From a point inside the
      bounds the step moves each coordinate by at most `MAX_OFFSET`. */
  function NextPoint(p: GeoPoint, d: PointDraw): (q: GeoPoint)
    ensures InBounds(q)
    ensures InBounds(p) ==> Near(p, q)
    ensures InBounds(GeoPoint(p.lat + Offset(d.lat), p.lng + Offset(d.lng))) ==>
      q == GeoPoint(p.lat + Offset(d.lat), p.lng + Offset(d.lng))
  {
    var q := GeoPoint(
      Clamp(GEO_BOUNDS.southwest.lat, GEO_BOUNDS.northeast.lat, p.lat + Offset(d.lat)),
      Clamp(GEO_BOUNDS.southwest.lng, GEO_BOUNDS.northeast.lng, p.lng + Offset(d.lng)));
    if InBounds(p) then
      ClampNonExpansive(GEO_BOUNDS.southwest.lat, GEO_BOUNDS.northeast.lat, p.lat, p.lat + Offset(d.lat));
      ClampNonExpansive(GEO_BOUNDS.southwest.lng, GEO_BOUNDS.northeast.lng, p.lng, p.lng + Offset(d.lng));
      q
    else
      q
  }

  /** `generateRandomPath()`: start at a random position and take `PATH_STEPS`
      clamped random steps, recording the point reached after each step (the
      starting position itself is not part of the path). Every point lies in the
      bounds and is near its predecessor. */
  method GenerateRandomPath(draws: PathDraws) returns (path: seq<GeoPoint>)
    requires |draws.steps| == PATH_STEPS
    ensures ValidPath(path)
    ensures Near(RandomPosition(draws.start), path[0])
    ensures forall k :: 0 < k < |path| ==> Near(path[k - 1], path[k])
    ensures path[0] == NextPoint(RandomPosition(draws.start), draws.steps[0])
    ensures forall k :: 0 < k < |path| ==> path[k] == NextPoint(path[k - 1], draws.steps[k])
  {
    var current := RandomPosition(draws.start);
    path := [];
    var i := 0;
    while i < PATH_STEPS
      invariant 0 <= i <= PATH_STEPS
      invariant |path| == i
      invariant InBounds(current)
      invariant i == 0 ==> current == RandomPosition(draws.start)
      invariant i > 0 ==> current == path[i - 1]
      invariant i > 0 ==> path[0] == NextPoint(RandomPosition(draws.start), draws.steps[0])
      invariant forall k :: 0 <= k < i ==> InBounds(path[k])
      invariant forall k :: 0 < k < i ==> path[k] == NextPoint(path[k - 1], draws.steps[k])
    {
      current := NextPoint(current, draws.steps[i]);
      path := path + [current];
      i := i + 1;
    }
  }
}

=== FILE: issues.dfy ===
/** The fault state machine of one vehicle (`determineIssue`). The state is
    carried, as in the simulator, by the triple `hasIssue` / `errorMessage` /
    `issueTimer`; `Health` is the same state as a tagged variant, in which the
    defensive "Unknown issue" repair has no case at all. */
module Issues {
  import opened Js
  import opened Vehicles
  import opened Reasons

  /** A healthy vehicle is checked against the fault rules when the roll exceeds
      this threshold (a 30% chance). */
  const ISSUE_ROLL_THRESHOLD := 0.7

  /** A new fault lasts `Math.floor(getRandomInRange(180, 240))` evaluations. */
  const ISSUE_TIMER_MIN := 180
  const ISSUE_TIMER_MAX := 239

  const UNKNOWN_ISSUE := "Unknown issue"

  /** Which of the branches of the state machine a call takes. */
  datatype Branch =
    | Countdown  // faulted with time left: tick the timer down, nothing else
    | Onset      // healthy and the roll passed: evaluate the fault rules
    | Quiet      // healthy and the roll failed: nothing happens
    | Fallback   // faulted without time left: keep the fault, patch the message

  /** The branches partition the inputs: the timer is consulted only for a
      faulted vehicle and the roll only for a healthy one. */
  function BranchOf(v: Vehicle, roll: Unit): (b: Branch)
    ensures b == Countdown <==> v.hasIssue && v.issueTimer > 0
    ensures b == Fallback <==> v.hasIssue && v.issueTimer <= 0
    ensures b == Onset <==> !v.hasIssue && roll > ISSUE_ROLL_THRESHOLD
    ensures b == Quiet <==> !v.hasIssue && roll <= ISSUE_ROLL_THRESHOLD
  {
    if v.hasIssue && v.issueTimer > 0 then Countdown
    else if !v.hasIssue && roll > ISSUE_ROLL_THRESHOLD then Onset
    else if v.hasIssue then Fallback
    else Quiet
  }

  /** Duration of a newly raised fault, drawn from [180, 240) and rounded down:
      in exact arithmetic at most 239. */
  function IssueDuration(u: Unit): (t: int)
    ensures ISSUE_TIMER_MIN <= t <= ISSUE_TIMER_MAX
  {
    RandomInRange(ISSUE_TIMER_MIN as real, (ISSUE_TIMER_MAX + 1) as real, u).Floor
  }

  /** `determineIssue(vehicle)` with its two `Math.random()` calls as parameters:
      `roll` decides whether a healthy vehicle is checked, `timerDraw` sets the
      duration of a new fault. Only the three fault fields ever change. */
  function DetermineIssue(v: Vehicle, roll: Unit, timerDraw: Unit): (r: Vehicle)
    ensures r == v.(hasIssue := r.hasIssue, errorMessage := r.errorMessage, issueTimer := r.issueTimer)
    ensures BranchOf(v, roll) == Countdown ==>
      && r.issueTimer == v.issueTimer - 1
      && (r.hasIssue <==> r.issueTimer != 0)
      && r.errorMessage == (if r.hasIssue then v.errorMessage else "")
    ensures BranchOf(v, roll) == Onset && |Fired(v.attributes)| > 0 ==>
      && r.hasIssue
      && r.errorMessage == Describe(Fired(v.attributes))
      && ISSUE_TIMER_MIN <= r.issueTimer <= ISSUE_TIMER_MAX
    ensures BranchOf(v, roll) == Onset && |Fired(v.attributes)| == 0 ==> r == v
    ensures BranchOf(v, roll) == Quiet ==> r == v
    ensures BranchOf(v, roll) == Fallback ==>
      && r.hasIssue
      && r.issueTimer == v.issueTimer
      && r.errorMessage != ""
      && (v.errorMessage != "" ==> r.errorMessage == v.errorMessage)
      && (v.errorMessage == "" ==> r.errorMessage == UNKNOWN_ISSUE)
  {
    match BranchOf(v, roll)
    case Countdown =>
      var t := v.issueTimer - 1;
      if t == 0 then v.(issueTimer := t, hasIssue := false, errorMessage := "")
      else v.(issueTimer := t)
    case Onset =>
      var issues := Fired(v.attributes);
      if |issues| > 0 then
        v.(hasIssue := true, errorMessage := Describe(issues), issueTimer := IssueDuration(timerDraw))
      else v
    case Quiet => v
    case Fallback =>
      v.(errorMessage := if v.errorMessage == "" then UNKNOWN_ISSUE else v.errorMessage)
  }

  /** The consistency of the three fault fields: a healthy vehicle has no message
      and no timer; a faulted one has time left and a message listing reasons. */
  predicate IssueInvariant(v: Vehicle)
  {
    && (!v.hasIssue ==> v.errorMessage == "" && v.issueTimer == 0)
    && (v.hasIssue ==> WellFormedMessage(v.errorMessage) && v.issueTimer > 0)
  }

  /** The invariant gives the weaker, observable consistency: a faulted vehicle
      always shows a message, and never the generic one. */
  lemma IssueInvariantMessages(v: Vehicle)
    requires IssueInvariant(v)
    ensures v.hasIssue <==> v.errorMessage != ""
    ensures v.hasIssue <==> v.issueTimer > 0
    ensures v.errorMessage != UNKNOWN_ISSUE
  {
    if v.hasIssue {
      WellFormedMessageNotGeneric(v.errorMessage);
    }
  }

  /** `determineIssue` keeps the invariant, and under it the defensive
      "Unknown issue" branch is never taken. */
  lemma DetermineIssuePreservesInvariant(v: Vehicle, roll: Unit, timerDraw: Unit)
    requires IssueInvariant(v)
    ensures BranchOf(v, roll) != Fallback
    ensures IssueInvariant(DetermineIssue(v, roll, timerDraw))
  {
    var issues := Fired(v.attributes);
    if BranchOf(v, roll) == Onset && |issues| > 0 {
      DecodeDescribe(issues);
    }
  }

  /** A fault that still has `ticksLeft` evaluations to run. */
  type Ticks = n: int | n > 0 witness 1

  /** The fault state as a tagged variant. */
  datatype Health = Healthy | Faulted(ticksLeft: Ticks, reasons: seq<Reason>)

  predicate ValidHealth(h: Health)
  {
    h.Faulted? ==> |h.reasons| > 0
  }

  /** Reads the variant off a consistent vehicle. */
  function HealthOf(v: Vehicle): (h: Health)
    requires IssueInvariant(v)
    ensures ValidHealth(h)
  {
    if v.hasIssue then Faulted(v.issueTimer, Decode(v.errorMessage).value) else Healthy
  }

  /** Writes a variant back into the three fault fields of `v`. */
  function WithHealth(v: Vehicle, h: Health): Vehicle
  {
    match h
    case Healthy => v.(hasIssue := false, errorMessage := "", issueTimer := 0)
    case Faulted(t, rs) => v.(hasIssue := true, errorMessage := Describe(rs), issueTimer := t)
  }

  /** Reading and writing the variant are inverse to each other. */
  lemma HealthRoundTrip(v: Vehicle, h: Health)
    ensures IssueInvariant(v) ==> WithHealth(v, HealthOf(v)) == v
    ensures ValidHealth(h) ==> IssueInvariant(WithHealth(v, h)) && HealthOf(WithHealth(v, h)) == h
  {
    if IssueInvariant(v) && v.hasIssue {
      DescribeDecode(v.errorMessage);
    }
    if h.Faulted? && |h.reasons| > 0 {
      DecodeDescribe(h.reasons);
    }
  }

  /** The state machine on the variant. It has no case for a fault without time
      left, so nothing like the "Unknown issue" repair can arise. */
  function NextHealth(h: Health, a: Attributes, roll: Unit, timerDraw: Unit): (h': Health)
    ensures ValidHealth(h) ==> ValidHealth(h')
  {
    match h
    case Faulted(t, rs) => if t == 1 then Healthy else Faulted(t - 1, rs)
    case Healthy =>
      var issues := Fired(a);
      if roll > ISSUE_ROLL_THRESHOLD && |issues| > 0 then Faulted(IssueDuration(timerDraw), issues)
      else Healthy
  }

  /** On consistent vehicles `determineIssue` is exactly the variant's state machine. */
  lemma DetermineIssueRefinesHealth(v: Vehicle, roll: Unit, timerDraw: Unit)
    requires IssueInvariant(v)
    ensures IssueInvariant(DetermineIssue(v, roll, timerDraw))
    ensures HealthOf(DetermineIssue(v, roll, timerDraw)) == NextHealth(HealthOf(v), v.attributes, roll, timerDraw)
  {
    DetermineIssuePreservesInvariant(v, roll, timerDraw);
    var issues := Fired(v.attributes);
    if BranchOf(v, roll) == Onset && |issues| > 0 {
      DecodeDescribe(issues);
    }
  }

  /** The two draws one call of `determineIssue` consumes. */
  datatype IssueDraw = IssueDraw(roll: Unit, timer: Unit)

  /** `determineIssue` applied once per draw, attributes held fixed. */
  function DetermineIssueRepeatedly(v: Vehicle, draws: seq<IssueDraw>): Vehicle
    decreases |draws|
  {
    if |draws| == 0 then v
    else DetermineIssueRepeatedly(DetermineIssue(v, draws[0].roll, draws[0].timer), draws[1..])
  }

  /** A fault with timer T is still active, with T - k left, after k < T further
      evaluations, and is cleared after exactly T, whatever the rolls. */
  lemma {:induction false} FaultLastsExactlyTimer(v: Vehicle, draws: seq<IssueDraw>)
    requires v.hasIssue && v.issueTimer > 0
    requires |draws| <= v.issueTimer
    ensures DetermineIssueRepeatedly(v, draws).issueTimer == v.issueTimer - |draws|
    ensures DetermineIssueRepeatedly(v, draws).hasIssue <==> |draws| < v.issueTimer
    ensures DetermineIssueRepeatedly(v, draws).errorMessage
            == (if |draws| < v.issueTimer then v.errorMessage else "")
    ensures DetermineIssueRepeatedly(v, draws).attributes == v.attributes
    decreases |draws|
  {
    if |draws| > 0 {
      var next := DetermineIssue(v, draws[0].roll, draws[0].timer);
      if next.hasIssue {
        FaultLastsExactlyTimer(next, draws[1..]);
      } else {
        assert |draws[1..]| == 0;
      }
    }
  }
}

=== FILE: js.dfy ===
/** The few JavaScript runtime primitives the simulator relies on: `Math.random`,
    `Math.max`/`Math.min`/`Math.floor`, and reading an array element that may be
    past either end. Numbers are modelled as exact reals; IEEE rounding is not. */
module Js {

  /** One value of `Math.random()`: a number in [0, 1). Every random draw of the
      simulator is passed in explicitly as a value of this type. */
  type Unit = r: real | 0.0 <= r < 1.0

  /** The result of reading a JavaScript array: an element, or `undefined` when
      the index is outside the array. */
  datatype Maybe<+T> = Undefined | Defined(value: T)

  /** `s[i]` in JavaScript: the element at an index inside the array, and
      `undefined` at any other index, negative ones included. */
  function At<T>(s: seq<T>, i: int): (m: Maybe<T>)
    ensures m.Defined? <==> 0 <= i < |s|
    ensures m.Defined? ==> m.value == s[i]
  {
    if 0 <= i < |s| then Defined(s[i]) else Undefined
  }

  /** `Math.max(a, b)` on non-NaN numbers. */
  function Max(a: real, b: real): real
  {
    if a >= b then a else b
  }

  /** `Math.min(a, b)` on non-NaN numbers. */
  function Min(a: real, b: real): real
  {
    if a <= b then a else b
  }

  /** `Math.max(lo, Math.min(hi, x))`: the clamping idiom used for every bounded
      quantity. When the band is non-empty the result lies in it, and a value
      already inside the band is left as it is; a value below the band goes to
      `lo`, and one above a non-empty band goes to `hi`. */
  function Clamp(lo: real, hi: real, x: real): (r: real)
    ensures lo <= r
    ensures lo <= hi ==> r <= hi
    ensures lo <= x <= hi ==> r == x
    ensures x <= lo ==> r == lo
    ensures lo <= hi <= x ==> r == hi
    ensures r == x || r == lo || r == hi
  {
    Max(lo, Min(hi, x))
  }

  /** Clamping into a band never moves two points further apart. */
  lemma ClampNonExpansive(lo: real, hi: real, x: real, y: real)
    requires lo <= hi
    ensures Abs(Clamp(lo, hi, x) - Clamp(lo, hi, y)) <= Abs(x - y)
  {
  }

  function Abs(x: real): real
  {
    if x < 0.0 then -x else x
  }

  /** `getRandomInRange(min, max)`: `Math.random() * (max - min) + min`, in exact
      arithmetic a point of the half-open range [min, max) when the range is
      non-empty. */
  function RandomInRange(lo: real, hi: real, u: Unit): (r: real)
    ensures lo <= hi ==> lo <= r <= hi
    ensures lo < hi ==> r < hi
  {
    var width := hi - lo;
    if width >= 0.0 then
      ScaleBelow(u, width);
      u * width + lo
    else
      u * width + lo
  }

  /** Scaling a non-negative width by a draw in [0, 1) lands in [0, width], and
      strictly below a positive width. */
  lemma ScaleBelow(u: Unit, w: real)
    requires w >= 0.0
    ensures 0.0 <= u * w <= w
    ensures w > 0.0 ==> u * w < w
  {
    assert (1.0 - u) * w >= 0.0;
    if w > 0.0 {
      assert (1.0 - u) * w > 0.0;
    }
  }
}

=== FILE: motion.dfy ===
/** Bounce traversal of a fixed path: a vehicle walks its path point by point
    and, at either end, turns round instead of wrapping or stopping. */
module Motion {

  /** Where a vehicle stands on its path (`pathIndex`) and which way it walks
      (`pathDirection`, +1 forward, -1 back). */
  datatype Cursor = Cursor(index: int, direction: int)

  /** A cursor on a path of `n` points. */
  predicate ValidCursor(c: Cursor, n: int)
  {
    0 <= c.index < n && (c.direction == 1 || c.direction == -1)
  }

  /** The next index in the current direction falls off the path. */
  predicate WouldLeave(c: Cursor, n: int)
  {
    c.index + c.direction >= n || c.index + c.direction < 0
  }

  /** One step along a path of `n` points: move one point in the current
      direction, or, when that would leave the path, flip the direction and
      step back instead. */
  function Advance(c: Cursor, n: int): (r: Cursor)
    ensures r.index - r.direction == c.index
    ensures r.direction == c.direction || r.direction == -c.direction
    ensures n >= 2 && ValidCursor(c, n) ==> ValidCursor(r, n)
    ensures c.direction != 0 ==> (r.direction == -c.direction <==> WouldLeave(c, n))
  {
    if WouldLeave(c, n) then Cursor(c.index - c.direction, -c.direction)
    else Cursor(c.index + c.direction, c.direction)
  }

  /** `k` consecutive steps. */
  function AdvanceN(c: Cursor, n: int, k: nat): Cursor
    decreases k
  {
    if k == 0 then c else AdvanceN(Advance(c, n), n, k - 1)
  }

  /** On a path of `n >= 2` points, any number of steps keeps the cursor valid. */
  lemma {:induction false} AdvanceNValid(c: Cursor, n: int, k: nat)
    requires n >= 2 && ValidCursor(c, n)
    ensures ValidCursor(AdvanceN(c, n, k), n)
    decreases k
  {
    if k > 0 {
      AdvanceNValid(Advance(c, n), n, k - 1);
    }
  }

  /** `a` steps followed by `b` steps are `a + b` steps. */
  lemma {:induction false} AdvanceNAdd(c: Cursor, n: int, a: nat, b: nat)
    ensures AdvanceN(c, n, a + b) == AdvanceN(AdvanceN(c, n, a), n, b)
    decreases a
  {
    if a > 0 {
      AdvanceNAdd(Advance(c, n), n, a - 1, b);
    }
  }

  /** Walking forward with room ahead just counts up. */
  lemma {:induction false} WalkForward(i: int, n: int, k: nat)
    requires 0 <= i && i + k <= n - 1
    ensures AdvanceN(Cursor(i, 1), n, k) == Cursor(i + k, 1)
    decreases k
  {
    if k > 0 {
      WalkForward(i + 1, n, k - 1);
    }
  }

  /** Walking backward with room behind just counts down. */
  lemma {:induction false} WalkBackward(i: int, n: int, k: nat)
    requires i < n && k <= i
    ensures AdvanceN(Cursor(i, -1), n, k) == Cursor(i - k, -1)
    decreases k
  {
    if k > 0 {
      WalkBackward(i - 1, n, k - 1);
    }
  }

  /** The patrol from the start of a path of `n >= 2` points: it reaches the far
      end after `n - 1` steps, turns round on step `n`, is back at index 0 after
      `2n - 2` steps and turns forward again on the step after. */
  lemma BounceRoundTrip(n: int)
    requires n >= 2
    ensures AdvanceN(Cursor(0, 1), n, n - 1) == Cursor(n - 1, 1)
    ensures AdvanceN(Cursor(0, 1), n, n) == Cursor(n - 2, -1)
    ensures AdvanceN(Cursor(0, 1), n, 2 * n - 2) == Cursor(0, -1)
    ensures AdvanceN(Cursor(0, 1), n, 2 * n - 1) == Cursor(1, 1)
  {
    var start := Cursor(0, 1);
    WalkForward(0, n, n - 1);
    AdvanceNAdd(start, n, n - 1, 1);
    AdvanceNAdd(start, n, n, n - 2);
    WalkBackward(n - 2, n, n - 2);
    AdvanceNAdd(start, n, 2 * n - 2, 1);
  }

  /** The starting state (index 0, walking forward) never comes back: the
      only forward step into index 0 would come from index -1. */
  lemma NeverBackToStart(n: int, k: nat)
    requires n >= 2 && k >= 1
    ensures AdvanceN(Cursor(0, 1), n, k) != Cursor(0, 1)
  {
    AdvanceNAdd(Cursor(0, 1), n, k - 1, 1);
    AdvanceNValid(Cursor(0, 1), n, k - 1);
  }

  /** After the first step the patrol repeats with period `2n - 2`. */
  lemma BouncePeriodic(n: int, k: nat)
    requires n >= 2 && k >= 1
    ensures AdvanceN(Cursor(0, 1), n, k + (2 * n - 2)) == AdvanceN(Cursor(0, 1), n, k)
  {
    var start := Cursor(0, 1);
    BounceRoundTrip(n);
    AdvanceNAdd(start, n, 1, k - 1);
    AdvanceNAdd(start, n, 2 * n - 1, k - 1);
    assert k + (2 * n - 2) == (2 * n - 1) + (k - 1);
  }

  /** Why a path needs two points: on a single point the walk leaves the path. */
  lemma SinglePointPathEscapes()
    ensures Advance(Cursor(0, 1), 1) == Cursor(-1, -1)
    ensures !ValidCursor(Advance(Cursor(0, 1), 1), 1)
  {
  }
}

=== FILE: reasons.dfy ===
/** The four fault rules, the order they are checked in, and the error message
    that lists the rules that fired, joined with ", ". */
module Reasons {
  import opened Js
  import opened Vehicles

  const LOW_BATTERY_THRESHOLD := 20.0
  const TIRE_PRESSURE_MIN := 28.0
  const TIRE_PRESSURE_MAX := 36.0
  const OVERHEAT_THRESHOLD := 50.0

  /** One fault rule; the declaration order is the order the rules are checked in. */
  datatype Reason = LowBattery | TirePressure | Overheating | RegenDisabled

  /** Position of the rule in the checking order. */
  function Rank(r: Reason): nat
  {
    match r
    case LowBattery => 0
    case TirePressure => 1
    case Overheating => 2
    case RegenDisabled => 3
  }

  function Label(r: Reason): string
  {
    match r
    case LowBattery => "Low battery level"
    case TirePressure => "Tire pressure out of range"
    case Overheating => "Overheating"
    case RegenDisabled => "Regenerative braking disabled"
  }

  /** The condition under which a rule fires. */
  predicate Fires(r: Reason, a: Attributes)
  {
    match r
    case LowBattery => a.batteryLevel < LOW_BATTERY_THRESHOLD
    case TirePressure => a.tirePressure < TIRE_PRESSURE_MIN || a.tirePressure > TIRE_PRESSURE_MAX
    case Overheating => a.temperature > OVERHEAT_THRESHOLD
    case RegenDisabled => !a.regenerativeBraking
  }

  /** Strictly increasing in checking order, hence also free of repeats. */
  predicate InRuleOrder(rs: seq<Reason>)
  {
    forall j, k :: 0 <= j < k < |rs| ==> Rank(rs[j]) < Rank(rs[k])
  }

  /** The rules that fire on `a`, in checking order: exactly the firing rules,
      each once. */
  function Fired(a: Attributes): (rs: seq<Reason>)
    ensures forall k :: 0 <= k < |rs| ==> Fires(rs[k], a)
    ensures forall r :: Fires(r, a) ==> r in rs
    ensures InRuleOrder(rs)
  {
    (if Fires(LowBattery, a) then [LowBattery] else [])
    + (if Fires(TirePressure, a) then [TirePressure] else [])
    + (if Fires(Overheating, a) then [Overheating] else [])
    + (if Fires(RegenDisabled, a) then [RegenDisabled] else [])
  }

  /** `issues.join(", ")` over the labels of `rs`: empty exactly for the empty
      list, and otherwise starting with the first label. */
  function Describe(rs: seq<Reason>): (s: string)
    ensures s == "" <==> |rs| == 0
    ensures |rs| > 0 ==> Label(rs[0]) <= s
    decreases |rs|
  {
    if |rs| == 0 then ""
    else if |rs| == 1 then Label(rs[0])
    else Label(rs[0]) + ", " + Describe(rs[1..])
  }

  /** The label an exact string stands for, if any. */
  function ReasonOf(s: string): Maybe<Reason>
  {
    if s == Label(LowBattery) then Defined(LowBattery)
    else if s == Label(TirePressure) then Defined(TirePressure)
    else if s == Label(Overheating) then Defined(Overheating)
    else if s == Label(RegenDisabled) then Defined(RegenDisabled)
    else Undefined
  }

  /** Index of the first comma in `s`, or `|s|` when there is none. */
  function CommaIndex(s: string): (k: nat)
    ensures k <= |s|
    ensures k < |s| ==> s[k] == ','
    ensures forall j :: 0 <= j < k ==> s[j] != ','
    decreases |s|
  {
    if |s| == 0 then 0
    else if s[0] == ',' then 0
    else 1 + CommaIndex(s[1..])
  }

  /** Parses an error message back into the list of reasons it names:
      labels separated by ", ". `Undefined` for anything else, including "". */
  function Decode(s: string): (m: Maybe<seq<Reason>>)
    ensures m.Defined? ==> |m.value| > 0
    decreases |s|
  {
    var k := CommaIndex(s);
    if k == |s| then Cons(ReasonOf(s), Defined([]))
    else if k + 1 < |s| && s[k + 1] == ' ' then Cons(ReasonOf(s[..k]), Decode(s[k + 2..]))
    else Undefined
  }

  /** Prepends a parsed reason to a parsed tail, failing if either failed. */
  function Cons(head: Maybe<Reason>, tail: Maybe<seq<Reason>>): (m: Maybe<seq<Reason>>)
    ensures m.Defined? <==> head.Defined? && tail.Defined?
    ensures m.Defined? ==> m.value == [head.value] + tail.value
  {
    if head.Defined? && tail.Defined? then Defined([head.value] + tail.value) else Undefined
  }

  /** A message the fault rules can produce. */
  predicate WellFormedMessage(s: string)
  {
    Decode(s).Defined?
  }

  lemma LabelRoundTrip(r: Reason)
    ensures ReasonOf(Label(r)) == Defined(r)
    ensures |Label(r)| > 0
    ensures forall j :: 0 <= j < |Label(r)| ==> Label(r)[j] != ','
  {
  }

  /** Reading back the message built from a non-empty reason list gives the list. */
  lemma {:induction false} DecodeDescribe(rs: seq<Reason>)
    requires |rs| > 0
    ensures Decode(Describe(rs)) == Defined(rs)
    decreases |rs|
  {
    var head := Label(rs[0]);
    LabelRoundTrip(rs[0]);
    if |rs| == 1 {
      DescribeSingle(rs[0]);
      NoCommaIndex(head);
      assert rs == [rs[0]] + [];
    } else {
      var tail := Describe(rs[1..]);
      DescribeCons(rs[0], rs[1..]);
      assert [rs[0]] + rs[1..] == rs;
      JoinedParts(head, tail);
      DecodeDescribe(rs[1..]);
    }
  }

  lemma NoCommaIndex(s: string)
    requires forall j :: 0 <= j < |s| ==> s[j] != ','
    ensures CommaIndex(s) == |s|
  {
  }

  /** Splitting `head + ", " + tail` at its first comma, when `head` has none,
      gives back `head` and `tail`. */
  lemma JoinedParts(head: string, tail: string)
    requires forall j :: 0 <= j < |head| ==> head[j] != ','
    ensures CommaIndex(head + ", " + tail) == |head|
    ensures (head + ", " + tail)[..|head|] == head
    ensures (head + ", " + tail)[|head| + 2..] == tail
    ensures (head + ", " + tail)[|head| + 1] == ' '
  {
    var s := head + ", " + tail;
    assert s[|head|] == ',';
    assert forall j :: 0 <= j < |head| ==> s[j] == head[j];
  }

  /** Conversely, every message that parses is the join of what it parses to. */
  lemma {:induction false} DescribeDecode(s: string)
    requires WellFormedMessage(s)
    ensures Describe(Decode(s).value) == s
    decreases |s|
  {
    var k := CommaIndex(s);
    if k == |s| {
      LabelOfReasonOf(s);
      DescribeSingle(ReasonOf(s).value);
    } else {
      var head := s[..k];
      var tailText := s[k + 2..];
      DescribeDecode(tailText);
      LabelOfReasonOf(head);
      DescribeCons(ReasonOf(head).value, Decode(tailText).value);
      SplitAtSeparator(s, k);
    }
  }

  lemma DescribeSingle(r: Reason)
    ensures Describe([r]) == Label(r)
  {
  }

  lemma DescribeCons(r: Reason, rest: seq<Reason>)
    requires |rest| > 0
    ensures Describe([r] + rest) == Label(r) + ", " + Describe(rest)
  {
    assert ([r] + rest)[1..] == rest;
  }

  lemma SplitAtSeparator(s: string, k: nat)
    requires k + 1 < |s| && s[k] == ',' && s[k + 1] == ' '
    ensures s == s[..k] + ", " + s[k + 2..]
  {
  }

  lemma LabelOfReasonOf(s: string)
    requires ReasonOf(s).Defined?
    ensures Label(ReasonOf(s).value) == s
  {
  }

  /** No label starts with the letter of the generic "Unknown issue" text. */
  lemma LabelInitial(r: Reason)
    ensures |Label(r)| > 0 && Label(r)[0] != 'U'
  {
    match r
    case LowBattery =>
    case TirePressure =>
    case Overheating =>
    case RegenDisabled =>
  }

  /** A string starting with anything but 'U' is not "Unknown issue". */
  lemma NotGenericText(s: string)
    requires |s| > 0 && s[0] != 'U'
    ensures s != "Unknown issue"
  {
  }

  /** So the message of a non-empty reason list is neither empty nor the generic
      "Unknown issue" text. */
  lemma DescribeNotGeneric(rs: seq<Reason>)
    requires |rs| > 0
    ensures Describe(rs) != ""
    ensures Describe(rs) != "Unknown issue"
  {
    LabelInitial(rs[0]);
    var s := Describe(rs);
    assert s[0] == Label(rs[0])[0];
    NotGenericText(s);
  }

  /** Every well-formed message is non-empty and is not "Unknown issue". */
  lemma WellFormedMessageNotGeneric(s: string)
    requires WellFormedMessage(s)
    ensures s != ""
    ensures s != "Unknown issue"
  {
    DescribeDecode(s);
    DescribeNotGeneric(Decode(s).value);
  }
}

=== FILE: simulation.dfy ===
/** The simulation driver: the fleet of ten vehicles and their paths built at
    start-up, and the periodic tick that updates each vehicle when its own coin
    flip succeeds. */
module Simulation {
  import opened Js
  import opened Geo
  import opened Vehicles
  import opened Decimal
  import opened Issues
  import opened Motion
  import opened Update

  /** Number of simulated vehicles (and of paths). */
  const FLEET_SIZE := 10

  /** A vehicle is updated on a tick when its coin exceeds this (a 50% chance). */
  const UPDATE_THRESHOLD := 0.5

  /** An initial vehicle has regenerative braking enabled when its draw exceeds this. */
  const INITIAL_REGEN_THRESHOLD := 0.5

  /** The `Math.random()` values one initial vehicle consumes, in source order. */
  datatype InitDraws = InitDraws(
    speed: Unit,
    battery: Unit,
    temperature: Unit,
    tirePressure: Unit,
    motorEfficiency: Unit,
    regen: Unit,
    oil: Unit,
    brakeFluid: Unit,
    coolant: Unit,
    fuel: Unit,
    engineLoad: Unit,
    gpsAccuracy: Unit,
    position: PointDraw)

  /** The `i`-th (0-based) vehicle of the initial fleet: numbered `i + 1`,
      healthy, at the start of its path walking forward, but placed at an
      independent random position rather than on its path. */
  function NewVehicle(i: nat, d: InitDraws): (v: Vehicle)
    ensures v.id == NatToString(i + 1) && ParseNat(v.id) == i + 1
    ensures v.name == "Vehicle #" + v.id
    ensures AttributesInBands(v.attributes) && LevelsNonNegative(v.attributes)
    ensures v.position.Defined? && InBounds(v.position.value)
    ensures IssueInvariant(v) && !v.hasIssue
    ensures CursorOf(v) == Cursor(0, 1) && v.status == Moving
  {
    ParseNatToString(i + 1);
    var id := NatToString(i + 1);
    Vehicle(
      id := id,
      name := "Vehicle #" + id,
      attributes := Attributes(
        speed := RandomInRange(30.0, 60.0, d.speed),
        batteryLevel := RandomInRange(50.0, 100.0, d.battery),
        temperature := RandomInRange(20.0, 40.0, d.temperature),
        tirePressure := RandomInRange(30.0, 35.0, d.tirePressure),
        motorEfficiency := RandomInRange(85.0, 95.0, d.motorEfficiency),
        regenerativeBraking := d.regen > INITIAL_REGEN_THRESHOLD,
        oilLevel := RandomInRange(50.0, 100.0, d.oil),
        brakeFluid := RandomInRange(50.0, 100.0, d.brakeFluid),
        coolantLevel := RandomInRange(50.0, 100.0, d.coolant),
        fuelLevel := RandomInRange(20.0, 70.0, d.fuel),
        engineLoad := RandomInRange(50.0, 80.0, d.engineLoad),
        gpsAccuracy := RandomInRange(5.0, 10.0, d.gpsAccuracy)),
      position := Defined(RandomPosition(d.position)),
      pathIndex := 0,
      pathDirection := 1,
      hasIssue := false,
      errorMessage := "",
      issueTimer := 0,
      status := Moving)
  }

  /** The fleet as the simulator starts it: ten vehicles numbered "1" to "10",
      every one healthy and at index 0 of its path walking forward. */
  function InitialFleet(draws: seq<InitDraws>): (fleet: seq<Vehicle>)
    requires |draws| == FLEET_SIZE
    ensures |fleet| == FLEET_SIZE
    ensures forall i :: 0 <= i < |fleet| ==>
      && fleet[i].id == NatToString(i + 1)
      && fleet[i].name == "Vehicle #" + fleet[i].id
    ensures forall i :: 0 <= i < |fleet| ==>
      && !fleet[i].hasIssue
      && fleet[i].errorMessage == ""
      && fleet[i].issueTimer == 0
      && CursorOf(fleet[i]) == Cursor(0, 1)
      && fleet[i].status == Moving
  {
    seq(FLEET_SIZE, i requires 0 <= i < FLEET_SIZE => NewVehicle(i, draws[i]))
  }

  /** No two vehicles of the initial fleet share an id. */
  lemma InitialIdsDistinct(draws: seq<InitDraws>)
    requires |draws| == FLEET_SIZE
    ensures forall i, j :: 0 <= i < j < FLEET_SIZE ==> InitialFleet(draws)[i].id != InitialFleet(draws)[j].id
  {
    forall i, j | 0 <= i < j < FLEET_SIZE
      ensures InitialFleet(draws)[i].id != InitialFleet(draws)[j].id
    {
      NatToStringInjective(i + 1, j + 1);
    }
  }

  /** `PATHS`: one freshly generated path per vehicle. */
  method InitialPaths(draws: seq<PathDraws>) returns (paths: seq<seq<GeoPoint>>)
    requires |draws| == FLEET_SIZE
    requires forall k :: 0 <= k < |draws| ==> |draws[k].steps| == PATH_STEPS
    ensures |paths| == FLEET_SIZE
    ensures forall k :: 0 <= k < |paths| ==> ValidPath(paths[k])
    ensures forall k, m :: 0 <= k < |paths| && 0 < m < |paths[k]| ==> Near(paths[k][m - 1], paths[k][m])
    ensures forall k :: 0 <= k < |paths| ==> |paths[k]| > 0 && Near(RandomPosition(draws[k].start), paths[k][0])
  {
    paths := [];
    var i := 0;
    while i < FLEET_SIZE
      invariant 0 <= i <= FLEET_SIZE
      invariant |paths| == i
      invariant forall k :: 0 <= k < i ==> ValidPath(paths[k])
      invariant forall k, m :: 0 <= k < i && 0 < m < |paths[k]| ==> Near(paths[k][m - 1], paths[k][m])
      invariant forall k :: 0 <= k < i ==> |paths[k]| > 0 && Near(RandomPosition(draws[k].start), paths[k][0])
    {
      var path := GenerateRandomPath(draws[i]);
      paths := paths + [path];
      i := i + 1;
    }
  }

  /** What holds of the whole fleet between ticks: each vehicle has a valid path
      of its own and satisfies the vehicle invariant on it. */
  predicate FleetInvariant(fleet: seq<Vehicle>, paths: seq<seq<GeoPoint>>)
  {
    && |fleet| <= |paths|
    && (forall k :: 0 <= k < |paths| ==> ValidPath(paths[k]))
    && (forall i :: 0 <= i < |fleet| ==> VehicleInvariant(fleet[i], paths[i]))
  }

  /** The initial fleet satisfies the fleet invariant on any valid paths. */
  lemma InitialFleetInvariant(draws: seq<InitDraws>, paths: seq<seq<GeoPoint>>)
    requires |draws| == FLEET_SIZE && |paths| == FLEET_SIZE
    requires forall k :: 0 <= k < |paths| ==> ValidPath(paths[k])
    ensures FleetInvariant(InitialFleet(draws), paths)
  {
  }

  /** Start-up: the fleet and the paths, with the invariant established. */
  method Startup(fleetDraws: seq<InitDraws>, pathDraws: seq<PathDraws>)
    returns (fleet: seq<Vehicle>, paths: seq<seq<GeoPoint>>)
    requires |fleetDraws| == FLEET_SIZE && |pathDraws| == FLEET_SIZE
    requires forall k :: 0 <= k < |pathDraws| ==> |pathDraws[k].steps| == PATH_STEPS
    ensures |fleet| == FLEET_SIZE && |paths| == FLEET_SIZE
    ensures fleet == InitialFleet(fleetDraws)
    ensures FleetInvariant(fleet, paths)
    ensures forall i, j :: 0 <= i < j < |fleet| ==> fleet[i].id != fleet[j].id
  {
    fleet := InitialFleet(fleetDraws);
    paths := InitialPaths(pathDraws);
    InitialFleetInvariant(fleetDraws, paths);
    InitialIdsDistinct(fleetDraws);
  }

  /** The draws of one tick: a coin and an update's draws for every vehicle. */
  datatype TickDraws = TickDraws(coins: seq<Unit>, updates: seq<StepDraws>)

  predicate Fits(t: TickDraws, n: nat)
  {
    |t.coins| == n && |t.updates| == n
  }

  predicate Selected(coin: Unit)
  {
    coin > UPDATE_THRESHOLD
  }

  /** The `forEach` of one tick from position `i` on: vehicle `i` is replaced in
      place by its update when its coin succeeds, then the loop moves on. Earlier
      positions are not touched again. */
  function TickFrom(fleet: seq<Vehicle>, paths: seq<seq<GeoPoint>>, t: TickDraws, i: nat): (r: seq<Vehicle>)
    requires Fits(t, |fleet|) && |fleet| <= |paths| && i <= |fleet|
    ensures |r| == |fleet|
    ensures forall j :: 0 <= j < i ==> r[j] == fleet[j]
    ensures forall j :: i <= j < |fleet| && !Selected(t.coins[j]) ==> r[j] == fleet[j]
    ensures forall j :: i <= j < |fleet| && Selected(t.coins[j]) ==>
      r[j] == GetRandomUpdate(fleet[j], paths[j], t.updates[j])
    decreases |fleet| - i
  {
    if i == |fleet| then fleet
    else
      var v := if Selected(t.coins[i]) then GetRandomUpdate(fleet[i], paths[i], t.updates[i]) else fleet[i];
      TickFrom(fleet[i := v], paths, t, i + 1)
  }

  /** One tick: the fleet keeps its length, a vehicle whose coin fails is left
      exactly as it was, and a vehicle whose coin succeeds is replaced by its
      update on its own path. */
  function Tick(fleet: seq<Vehicle>, paths: seq<seq<GeoPoint>>, t: TickDraws): (r: seq<Vehicle>)
    requires Fits(t, |fleet|) && |fleet| <= |paths|
    ensures |r| == |fleet|
    ensures forall j :: 0 <= j < |fleet| && !Selected(t.coins[j]) ==> r[j] == fleet[j]
    ensures forall j :: 0 <= j < |fleet| && Selected(t.coins[j]) ==>
      r[j] == GetRandomUpdate(fleet[j], paths[j], t.updates[j])
  {
    TickFrom(fleet, paths, t, 0)
  }

  /** A tick keeps the fleet invariant and every vehicle's id. */
  lemma TickPreservesInvariant(fleet: seq<Vehicle>, paths: seq<seq<GeoPoint>>, t: TickDraws)
    requires Fits(t, |fleet|)
    requires FleetInvariant(fleet, paths)
    ensures FleetInvariant(Tick(fleet, paths, t), paths)
    ensures forall j :: 0 <= j < |fleet| ==> Tick(fleet, paths, t)[j].id == fleet[j].id
  {
    var r := Tick(fleet, paths, t);
    forall j | 0 <= j < |fleet|
      ensures VehicleInvariant(r[j], paths[j])
    {
      if Selected(t.coins[j]) {
        UpdatePreservesInvariant(fleet[j], paths[j], t.updates[j]);
      }
    }
  }

  predicate FitsAll(ticks: seq<TickDraws>, n: nat)
  {
    forall k :: 0 <= k < |ticks| ==> Fits(ticks[k], n)
  }

  /** The fleet after a sequence of ticks. */
  function Run(fleet: seq<Vehicle>, paths: seq<seq<GeoPoint>>, ticks: seq<TickDraws>): (r: seq<Vehicle>)
    requires FitsAll(ticks, |fleet|) && |fleet| <= |paths|
    ensures |r| == |fleet|
    decreases |ticks|
  {
    if |ticks| == 0 then fleet
    else Run(Tick(fleet, paths, ticks[0]), paths, ticks[1..])
  }

  /** Any number of ticks keeps the fleet invariant and the ids. */
  lemma {:induction false} RunPreservesInvariant(fleet: seq<Vehicle>, paths: seq<seq<GeoPoint>>, ticks: seq<TickDraws>)
    requires FitsAll(ticks, |fleet|)
    requires FleetInvariant(fleet, paths)
    ensures FleetInvariant(Run(fleet, paths, ticks), paths)
    ensures forall j :: 0 <= j < |fleet| ==> Run(fleet, paths, ticks)[j].id == fleet[j].id
    decreases |ticks|
  {
    if |ticks| > 0 {
      TickPreservesInvariant(fleet, paths, ticks[0]);
      RunPreservesInvariant(Tick(fleet, paths, ticks[0]), paths, ticks[1..]);
    }
  }

  /** From start-up on, however the draws fall: every attribute stays in its
      band, the levels stay non-negative, every vehicle has a valid cursor on
      its path and a defined position inside `GEO_BOUNDS`, shows "moving",
      carries a consistent fault state, and never reports the generic
      "Unknown issue". */
  lemma SimulationKeepsInvariant(
    fleetDraws: seq<InitDraws>, paths: seq<seq<GeoPoint>>, ticks: seq<TickDraws>)
    requires |fleetDraws| == FLEET_SIZE && |paths| == FLEET_SIZE
    requires forall k :: 0 <= k < |paths| ==> ValidPath(paths[k])
    requires FitsAll(ticks, FLEET_SIZE)
    ensures FleetInvariant(Run(InitialFleet(fleetDraws), paths, ticks), paths)
    ensures forall j :: 0 <= j < FLEET_SIZE ==>
      && Run(InitialFleet(fleetDraws), paths, ticks)[j].errorMessage != UNKNOWN_ISSUE
      && Run(InitialFleet(fleetDraws), paths, ticks)[j].status == Moving
    ensures forall i, j :: 0 <= i < j < FLEET_SIZE ==>
      Run(InitialFleet(fleetDraws), paths, ticks)[i].id != Run(InitialFleet(fleetDraws), paths, ticks)[j].id
  {
    var fleet := InitialFleet(fleetDraws);
    InitialFleetInvariant(fleetDraws, paths);
    InitialIdsDistinct(fleetDraws);
    RunPreservesInvariant(fleet, paths, ticks);
    var r := Run(fleet, paths, ticks);
    forall j | 0 <= j < FLEET_SIZE
      ensures r[j].errorMessage != UNKNOWN_ISSUE
    {
      IssueInvariantMessages(r[j]);
    }
  }

  /** How many of the given ticks select vehicle `j`. */
  function SelectedCount(ticks: seq<TickDraws>, j: nat): (c: nat)
    requires forall k :: 0 <= k < |ticks| ==> j < |ticks[k].coins|
    ensures c <= |ticks|
    decreases |ticks|
  {
    if |ticks| == 0 then 0
    else (if Selected(ticks[0].coins[j]) then 1 else 0) + SelectedCount(ticks[1..], j)
  }

  /** A vehicle that no tick selects ends the run exactly as it started. */
  lemma {:induction false} UnselectedVehicleUnchanged(
    fleet: seq<Vehicle>, paths: seq<seq<GeoPoint>>, ticks: seq<TickDraws>, j: nat)
    requires FitsAll(ticks, |fleet|) && |fleet| <= |paths| && j < |fleet|
    requires SelectedCount(ticks, j) == 0
    ensures Run(fleet, paths, ticks)[j] == fleet[j]
    decreases |ticks|
  {
    if |ticks| > 0 {
      UnselectedVehicleUnchanged(Tick(fleet, paths, ticks[0]), paths, ticks[1..], j);
    }
  }

  /** A fault with timer T lasts for exactly T updates of its vehicle: after c
      selecting ticks (c <= T) the timer shows T - c, and the fault is still
      active exactly when c < T. Ticks that skip the vehicle do not count. */
  lemma {:induction false} FaultClearsAfterSelectedTicks(
    fleet: seq<Vehicle>, paths: seq<seq<GeoPoint>>, ticks: seq<TickDraws>, j: nat)
    requires FitsAll(ticks, |fleet|) && |fleet| <= |paths| && j < |fleet|
    requires fleet[j].hasIssue && fleet[j].issueTimer > 0
    requires SelectedCount(ticks, j) <= fleet[j].issueTimer
    ensures Run(fleet, paths, ticks)[j].issueTimer == fleet[j].issueTimer - SelectedCount(ticks, j)
    ensures Run(fleet, paths, ticks)[j].hasIssue <==> SelectedCount(ticks, j) < fleet[j].issueTimer
    ensures Run(fleet, paths, ticks)[j].errorMessage
            == (if SelectedCount(ticks, j) < fleet[j].issueTimer then fleet[j].errorMessage else "")
    decreases |ticks|
  {
    if |ticks| > 0 {
      var next := Tick(fleet, paths, ticks[0]);
      var rest := ticks[1..];
      if Selected(ticks[0].coins[j]) {
        UpdateCountsDown(fleet[j], paths[j], ticks[0].updates[j]);
        if next[j].hasIssue {
          FaultClearsAfterSelectedTicks(next, paths, rest, j);
        } else {
          UnselectedVehicleUnchanged(next, paths, rest, j);
        }
      } else {
        FaultClearsAfterSelectedTicks(next, paths, rest, j);
      }
    }
  }
}

=== FILE: update.dfy ===
/** One update of one vehicle (`getRandomUpdate`): a random walk of the
    attributes, a step along the vehicle's path, and then the fault state
    machine on the result. */
module Update {
  import opened Js
  import opened Geo
  import opened Vehicles
  import opened Reasons
  import opened Issues
  import opened Motion

  /** A bounded random walk: add `Math.random() * spread - spread / 2` and clamp
      into `band`. */
  datatype WalkRule = WalkRule(band: Band, spread: real)

  type Walk = w: WalkRule | w.band.lo <= w.band.hi && w.spread >= 0.0
    witness WalkRule(Band(0.0, 0.0), 0.0)

  const SPEED_WALK: Walk := WalkRule(SPEED_BAND, 10.0)
  const TEMPERATURE_WALK: Walk := WalkRule(TEMPERATURE_BAND, 2.0)
  const TIRE_PRESSURE_WALK: Walk := WalkRule(TIRE_PRESSURE_BAND, 0.5)
  const MOTOR_EFFICIENCY_WALK: Walk := WalkRule(MOTOR_EFFICIENCY_BAND, 0.5)
  const ENGINE_LOAD_WALK: Walk := WalkRule(ENGINE_LOAD_BAND, 2.0)
  const GPS_ACCURACY_WALK: Walk := WalkRule(GPS_ACCURACY_BAND, 0.2)

  /** Largest amount one update drains from a level. */
  type Rate = r: real | r >= 0.0

  const BATTERY_DRAIN: Rate := 1.5
  const OIL_DRAIN: Rate := 0.5
  const BRAKE_FLUID_DRAIN: Rate := 0.5
  const COOLANT_DRAIN: Rate := 0.5
  const FUEL_DRAIN: Rate := 1.0

  /** Regenerative braking stays enabled when its draw exceeds this (a 10% chance to disable). */
  const REGEN_DISABLE_THRESHOLD := 0.1

  /** The `Math.random()` values one update consumes: one per attribute in
      source order, then the fault roll and the fault duration. */
  datatype StepDraws = StepDraws(
    speed: Unit,
    battery: Unit,
    temperature: Unit,
    tirePressure: Unit,
    motorEfficiency: Unit,
    regen: Unit,
    oil: Unit,
    brakeFluid: Unit,
    coolant: Unit,
    fuel: Unit,
    engineLoad: Unit,
    gpsAccuracy: Unit,
    issueRoll: Unit,
    issueTimer: Unit)

  /** `Math.random() * spread - spread / 2`: a change within half the spread either way. */
  function Jitter(spread: real, u: Unit): (delta: real)
    requires spread >= 0.0
    ensures -spread / 2.0 <= delta <= spread / 2.0
  {
    ScaleBelow(u, spread);
    u * spread - spread / 2.0
  }

  /** One bounded random-walk step: the value plus its jitter when that stays in
      the band, and clamped into the band otherwise; from inside the band it
      moves by at most half the spread. */
  function WalkStep(w: Walk, x: real, u: Unit): (r: real)
    ensures w.band.Contains(r)
    ensures w.band.Contains(x) ==> Abs(r - x) <= w.spread / 2.0
    ensures w.band.Contains(x + Jitter(w.spread, u)) ==> r == x + Jitter(w.spread, u)
  {
    var moved := x + Jitter(w.spread, u);
    ClampNonExpansive(w.band.lo, w.band.hi, x, moved);
    Clamp(w.band.lo, w.band.hi, moved)
  }

  /** One drain step `Math.max(0, x - Math.random() * rate)`: the level loses
      exactly the drawn amount unless that would take it below 0; never
      negative, never above a non-negative level, never more than `rate` below it. */
  function DrainStep(rate: Rate, x: real, u: Unit): (r: real)
    ensures r >= 0.0
    ensures x >= 0.0 ==> r <= x
    ensures r >= x - rate
    ensures u * rate <= x ==> r == x - u * rate
  {
    ScaleBelow(u, rate);
    Max(0.0, x - u * rate)
  }

  /** The new attribute vector of `getRandomUpdate`. */
  function NextAttributes(a: Attributes, d: StepDraws): (r: Attributes)
    ensures AttributesInBands(r)
    ensures LevelsNonNegative(r)
    ensures LevelsNonNegative(a) ==> LevelsNotRaised(a, r)
    ensures r.regenerativeBraking <==> d.regen > REGEN_DISABLE_THRESHOLD
  {
    Attributes(
      speed := WalkStep(SPEED_WALK, a.speed, d.speed),
      batteryLevel := DrainStep(BATTERY_DRAIN, a.batteryLevel, d.battery),
      temperature := WalkStep(TEMPERATURE_WALK, a.temperature, d.temperature),
      tirePressure := WalkStep(TIRE_PRESSURE_WALK, a.tirePressure, d.tirePressure),
      motorEfficiency := WalkStep(MOTOR_EFFICIENCY_WALK, a.motorEfficiency, d.motorEfficiency),
      regenerativeBraking := d.regen > REGEN_DISABLE_THRESHOLD,
      oilLevel := DrainStep(OIL_DRAIN, a.oilLevel, d.oil),
      brakeFluid := DrainStep(BRAKE_FLUID_DRAIN, a.brakeFluid, d.brakeFluid),
      coolantLevel := DrainStep(COOLANT_DRAIN, a.coolantLevel, d.coolant),
      fuelLevel := DrainStep(FUEL_DRAIN, a.fuelLevel, d.fuel),
      engineLoad := WalkStep(ENGINE_LOAD_WALK, a.engineLoad, d.engineLoad),
      gpsAccuracy := WalkStep(GPS_ACCURACY_WALK, a.gpsAccuracy, d.gpsAccuracy))
  }

  /** From attributes in their bands, each walked attribute moves by at most
      half its spread: speed by 5, temperature and engine load by 1, tire
      pressure and motor efficiency by 0.25, GPS accuracy by 0.1. */
  lemma NextAttributesSmallSteps(a: Attributes, d: StepDraws)
    requires AttributesInBands(a)
    ensures Abs(NextAttributes(a, d).speed - a.speed) <= 5.0
    ensures Abs(NextAttributes(a, d).temperature - a.temperature) <= 1.0
    ensures Abs(NextAttributes(a, d).tirePressure - a.tirePressure) <= 0.25
    ensures Abs(NextAttributes(a, d).motorEfficiency - a.motorEfficiency) <= 0.25
    ensures Abs(NextAttributes(a, d).engineLoad - a.engineLoad) <= 1.0
    ensures Abs(NextAttributes(a, d).gpsAccuracy - a.gpsAccuracy) <= 0.1
  {
  }

  function CursorOf(v: Vehicle): Cursor
  {
    Cursor(v.pathIndex, v.pathDirection)
  }

  /** The object literal of `getRandomUpdate`, before `determineIssue` runs:
      the position is read at the index the vehicle stood on before the step,
      and the status from the speed before the update. */
  function Moved(v: Vehicle, path: seq<GeoPoint>, d: StepDraws): (r: Vehicle)
    ensures r.id == v.id && r.name == v.name
    ensures r.hasIssue == v.hasIssue && r.errorMessage == v.errorMessage && r.issueTimer == v.issueTimer
    ensures r.position == At(path, r.pathIndex - r.pathDirection)
    ensures ValidCursor(CursorOf(v), |path|) && |path| >= 2 ==>
      && ValidCursor(CursorOf(r), |path|)
      && r.position.Defined?
      && r.position.value == path[v.pathIndex]
    ensures AttributesInBands(r.attributes) && LevelsNonNegative(r.attributes)
    ensures AttributesInBands(v.attributes) ==> r.status == Moving
  {
    var next := Advance(CursorOf(v), |path|);
    v.(attributes := NextAttributes(v.attributes, d),
       position := At(path, v.pathIndex),
       pathIndex := next.index,
       pathDirection := next.direction,
       status := if v.attributes.speed > 0.0 then Moving else NotMoving)
  }

  /** `getRandomUpdate(vehicle, index)` with `path = PATHS[index]`. */
  function GetRandomUpdate(v: Vehicle, path: seq<GeoPoint>, d: StepDraws): (r: Vehicle)
    ensures r.id == v.id && r.name == v.name
    ensures r.attributes == NextAttributes(v.attributes, d)
    ensures r.position == At(path, v.pathIndex)
    ensures r.position == At(path, r.pathIndex - r.pathDirection)
    ensures CursorOf(r) == Advance(CursorOf(v), |path|)
    ensures r.status == (if v.attributes.speed > 0.0 then Moving else NotMoving)
    ensures IssueInvariant(v) ==> IssueInvariant(r) && r.errorMessage != UNKNOWN_ISSUE
  {
    var moved := Moved(v, path, d);
    if IssueInvariant(v) then
      DetermineIssuePreservesInvariant(moved, d.issueRoll, d.issueTimer);
      IssueInvariantMessages(DetermineIssue(moved, d.issueRoll, d.issueTimer));
      DetermineIssue(moved, d.issueRoll, d.issueTimer)
    else
      DetermineIssue(moved, d.issueRoll, d.issueTimer)
  }

  /** Everything that holds of a vehicle between updates, given its path. */
  predicate VehicleInvariant(v: Vehicle, path: seq<GeoPoint>)
  {
    && AttributesInBands(v.attributes)
    && LevelsNonNegative(v.attributes)
    && ValidCursor(CursorOf(v), |path|)
    && v.position.Defined?
    && InBounds(v.position.value)
    && IssueInvariant(v)
    && v.status == Moving
  }

  /** An update keeps the vehicle invariant on a valid path; the drain-only
      levels never rise, and the fault state moves as the variant machine says. */
  lemma UpdatePreservesInvariant(v: Vehicle, path: seq<GeoPoint>, d: StepDraws)
    requires ValidPath(path)
    requires VehicleInvariant(v, path)
    ensures VehicleInvariant(GetRandomUpdate(v, path, d), path)
    ensures LevelsNotRaised(v.attributes, GetRandomUpdate(v, path, d).attributes)
    ensures HealthOf(GetRandomUpdate(v, path, d))
            == NextHealth(HealthOf(v), GetRandomUpdate(v, path, d).attributes, d.issueRoll, d.issueTimer)
  {
    var moved := Moved(v, path, d);
    DetermineIssueRefinesHealth(moved, d.issueRoll, d.issueTimer);
    assert HealthOf(moved) == HealthOf(v);
  }

  /** A faulted vehicle with time left only counts down during an update: the
      new attributes are not checked against the fault rules. */
  lemma UpdateCountsDown(v: Vehicle, path: seq<GeoPoint>, d: StepDraws)
    requires v.hasIssue && v.issueTimer > 0
    ensures GetRandomUpdate(v, path, d).issueTimer == v.issueTimer - 1
    ensures GetRandomUpdate(v, path, d).hasIssue <==> v.issueTimer > 1
    ensures GetRandomUpdate(v, path, d).errorMessage == (if v.issueTimer > 1 then v.errorMessage else "")
  {
  }

  /** A healthy vehicle whose battery is below 20 and whose fault roll passes is
      faulted by the update, with the low-battery reason first in its message
      and a duration in [180, 239]. */
  lemma LowBatteryRaisesFault(v: Vehicle, path: seq<GeoPoint>, d: StepDraws)
    requires !v.hasIssue
    requires v.attributes.batteryLevel < LOW_BATTERY_THRESHOLD
    requires d.issueRoll > ISSUE_ROLL_THRESHOLD
    ensures GetRandomUpdate(v, path, d).hasIssue
    ensures Label(LowBattery) <= GetRandomUpdate(v, path, d).errorMessage
    ensures ISSUE_TIMER_MIN <= GetRandomUpdate(v, path, d).issueTimer <= ISSUE_TIMER_MAX
  {
    var a := NextAttributes(v.attributes, d);
    assert Fires(LowBattery, a);
    var issues := Fired(a);
    assert issues[0] == LowBattery;
  }
}

=== FILE: vehicles.dfy ===
/** The vehicle record the simulator keeps per unit, and the value ranges its
    telemetry attributes are meant to stay in. */
module Vehicles {
  import opened Js
  import opened Geo

  /** The telemetry vector of one vehicle. */
  datatype Attributes = Attributes(
    speed: real,
    batteryLevel: real,
    temperature: real,
    tirePressure: real,
    motorEfficiency: real,
    regenerativeBraking: bool,
    oilLevel: real,
    brakeFluid: real,
    coolantLevel: real,
    fuelLevel: real,
    engineLoad: real,
    gpsAccuracy: real)

  /** The display label: `"moving"` or `"not"`. */
  datatype Status = Moving | NotMoving

  /** One simulated vehicle. `position` is `Undefined` exactly when it was read
      from outside its path; `hasIssue`, `errorMessage` and `issueTimer` encode
      the fault state. */
  datatype Vehicle = Vehicle(
    id: string,
    name: string,
    attributes: Attributes,
    position: Maybe<GeoPoint>,
    pathIndex: int,
    pathDirection: int,
    hasIssue: bool,
    errorMessage: string,
    issueTimer: int,
    status: Status)

  /** A closed interval [lo, hi] of admissible values. */
  datatype Band = Band(lo: real, hi: real)
  {
    predicate Contains(x: real)
    {
      lo <= x <= hi
    }
  }

  const SPEED_BAND := Band(10.0, 120.0)
  const TEMPERATURE_BAND := Band(15.0, 60.0)
  const TIRE_PRESSURE_BAND := Band(25.0, 40.0)
  const MOTOR_EFFICIENCY_BAND := Band(70.0, 100.0)
  const ENGINE_LOAD_BAND := Band(40.0, 90.0)
  const GPS_ACCURACY_BAND := Band(3.0, 15.0)

  /** The six random-walk attributes lie in their bands. */
  predicate AttributesInBands(a: Attributes)
  {
    && SPEED_BAND.Contains(a.speed)
    && TEMPERATURE_BAND.Contains(a.temperature)
    && TIRE_PRESSURE_BAND.Contains(a.tirePressure)
    && MOTOR_EFFICIENCY_BAND.Contains(a.motorEfficiency)
    && ENGINE_LOAD_BAND.Contains(a.engineLoad)
    && GPS_ACCURACY_BAND.Contains(a.gpsAccuracy)
  }

  /** The five drain-only levels are not negative. */
  predicate LevelsNonNegative(a: Attributes)
  {
    && a.batteryLevel >= 0.0
    && a.oilLevel >= 0.0
    && a.brakeFluid >= 0.0
    && a.coolantLevel >= 0.0
    && a.fuelLevel >= 0.0
  }

  /** No drain-only level of `after` exceeds the one in `before`. */
  predicate LevelsNotRaised(before: Attributes, after: Attributes)
  {
    && after.batteryLevel <= before.batteryLevel
    && after.oilLevel <= before.oilLevel
    && after.brakeFluid <= before.brakeFluid
    && after.coolantLevel <= before.coolantLevel
    && after.fuelLevel <= before.fuelLevel
  }
}
